=== FILE: README.md ===
# react-svg-charts geometry, modelled in Dafny

This project models the geometry engine behind four small animated SVG
components: a ring (doughnut) chart, an area chart, a single bar, and an
animated counter. Each chart turns a numeric series into SVG path data and
animates from the previous series to the current one.

- `utils.dfy` (module `Utils`) covers the shared helpers:
  - normalisation of a series by its maximum ("comparison") or its sum ("percentage");
  - linear interpolation;
  - the two colour stops of a gradient.
- `geometry.dfy` (module `Geometry`) covers what the charts share:
  - points and SVG path commands (`M L C A a v Z`), kept as a command list rather than as text;
  - a pen that follows a path: where it is after each command and where its subpath began;
  - the host's math functions (`cos`, `sin`, `atan2`, `sqrt`) as uninterpreted parameters. Two laws are assumed, each only as a precondition of the lemmas that need it: the square-root laws (`SqrtLaws`) and cos^2 + sin^2 = 1 (`TrigLaws`).
- `circle.dfy` (module `Circle`) covers the ring chart:
  - segment angles, computed by a loop and by a reference function;
  - the four corner points of each segment;
  - ring and wedge paths and gradient directions;
  - the angle reported on a click;
  - the state kept between renders (`DoughnutChart`).
- `area.dfy` (module `Area`) covers the area chart:
  - data points;
  - the Bezier control points, with the smoothed and straight strokes;
  - the closed fill;
  - the state kept between renders (`AreaChart`).
- `bar.dfy` (module `Bar`) covers the bar chart:
  - the capsule and lens outlines of a bar;
  - the state kept between renders (`BarChart`).
- `counter.dfy` (module `Counter`) covers the counter: how previous, current, start and end move when data arrives (`AnimatedCounter`).

Each component's refs and state become a class:
- its constructor is the state after the first render and before any effect;
- `OnData` is the data effect;
- `Frame(value)` is one animation-listener call at progress `value`.

Numbers are exact reals. Paths are command sequences, and their meaning is given by `Geometry.Trace`. The main path properties are:
- the stroke passes through every data point;
- every subpath is drawn back to its first point (`SubpathsReturn`);
- the lens arcs cancel each other out.

## Model

| member | source | states |
|---|---|---|
| Utils.ToColorStops | src/utils/index.ts:13-25 | Exactly two stops, at offsets 0 and 1. A single colour gives both stops the same parsed colour and opacity; a pair gives the first to stop 0 and the last to stop 1. |
| Utils.Interpolate | src/utils/index.ts:34-36 | Progress 0 yields `from`, progress 1 yields `to`, and equal ends yield that value at any progress. |
| Utils.InterpolateRising | src/utils/index.ts:34-36 | For from <= to and progress in [0, 1], the result lies in [from, to]. |
| Utils.InterpolateFalling | src/utils/index.ts:34-36 | For to <= from and progress in [0, 1], the result lies in [to, from]. |
| Utils.InterpolateOvershoot | src/utils/index.ts:34-36 | Progress is not clamped. For from < to, progress above 1 goes beyond `to` and progress below 0 goes below `from`. |
| Utils.Normalize | src/utils/index.ts:44-57 | Returns the "unknown model" error exactly when the model is neither "comparison" nor "percentage". Otherwise the result has the data's length. "comparison" divides by the maximum; "percentage" divides by the sum. |
| Utils.Rescale | src/utils/index.ts:56 | A zero base maps every element to 0. Otherwise each result times the base gives back the element. |
| Utils.MaxIsAttained | src/utils/index.ts:48 | Every element is at most the maximum, and some element equals it. |
| Utils.ComparisonInUnitRange | src/utils/index.ts:44-57 | For non-negative data with a positive element, "comparison" maps into [0, 1]. An element maps to 1 exactly when it equals the maximum, and at least one does. |
| Utils.PercentageSumsToOne | src/utils/index.ts:44-57 | For non-negative data with a positive sum, "percentage" maps into [0, 1] and the results sum to exactly 1. |
| Utils.AllZeroNormalizesToZero | src/utils/index.ts:44-57 | All-zero data normalises to all zeros under both models, without error. |
| Utils.Blend | src/components/AreaChart.tsx:189 | The blended series has the current series' length. It equals prev at progress 0 and cur at progress 1, and it is cur at any progress when prev == cur. |
| Utils.Demote | src/components/AreaChart.tsx:218-222 | After new data, prev has the new length. It is the old current series when the lengths agree, and all zeros otherwise. |
| Circle.ToDegrees | src/components/CircleChart.tsx:101-112 | The accumulating loop returns exactly `Degrees(input)`: segment i starts at 360 times the sum of the values before it and sweeps 360 times its own value. |
| Circle.DegreesAreContiguous | src/components/CircleChart.tsx:104-110 | The first segment starts at 0, and each segment starts where the previous one ends. |
| Circle.StartIsSweepsBefore | src/components/CircleChart.tsx:104-110 | Each start angle equals the sum of the sweeps before it. |
| Circle.LastSegmentEnd | src/components/CircleChart.tsx:101-112 | The last segment ends at 360 times the input's sum. |
| Circle.SweepsTotal | src/components/CircleChart.tsx:101-112 | The sweeps add up to 360 times the input's sum. |
| Circle.DistributionFillsCircle | src/components/CircleChart.tsx:101-112 | For a non-negative input summing to 1, every segment lies within [0, 360] and the last ends at exactly 360. |
| Circle.InnerOuterOnOneRay | src/components/CircleChart.tsx:151-154 | For any cos and sin, the inner and outer corner points at the same angle lie in one direction from the centre (R, R), their offsets in the ratio r : R. |
| Circle.AtAngleOnCircle | src/components/CircleChart.tsx:151-154 | Where cos^2 + sin^2 = 1, the point at a radius and an angle lies on the circle of that radius around the centre. |
| Circle.ToStructs | src/components/CircleChart.tsx:143-159 | One structure per value, carrying the segment's angles from `Degrees`. p1 and P1 sit at the start angle on the inner and outer radius, p2 and P2 at the end angle (start plus sweep), with degrees converted to radians. Each pair p1/P1 and p2/P2 lies in one direction from the centre. |
| Circle.CornersOnCircles | src/components/CircleChart.tsx:143-159 | Where cos^2 + sin^2 = 1, every segment's p1 and p2 lie on the inner circle of radius r and its P1 and P2 on the outer circle of radius R, both around (R, R). |
| Circle.ToRingPath | src/components/CircleChart.tsx:161-173 | Two subpaths, each made of two half arcs. The outer one has radius R, starts at (2R, R) and passes through (0, R). The inner one has radius r, starts at (R + r, R) and passes through (R - r, R). Each pair of points is a horizontal diameter of a circle about (R, R), and all four arcs have the same sweep flag, so each subpath is a full circle. The path ends with a close, and each subpath returns to its first point. |
| Circle.SegmentPath | src/components/CircleChart.tsx:189-215 | Empty exactly for zero sweep; the full ring for a sweep of 360 or more. Otherwise the wedge is `M A A A A Z`: a move to p1, an inner arc of radius r to p2, a joint arc of radius (R - r)/2 to P2, an outer arc of radius R back to P1, and a joint arc to p1, then a close. The sweep flags are 1, 0, 0, 1. The inner and outer arcs take the large-arc flag exactly when the sweep exceeds 180; the joint arcs never do. |
| Circle.ToPaths | src/components/CircleChart.tsx:185-216 | One path per segment, each the `SegmentPath` of its segment. A path is empty exactly when its segment has no sweep, and a segment of 360 or more draws the ring. |
| Circle.ToGradient | src/components/CircleChart.tsx:230-235 | Each coordinate is 0 or 1. x1 + x2 = 1 and y1 + y2 = 1. x1 is 0 exactly when p1.x < p2.x, and likewise y1 on the y axis. |
| Circle.ToGradients | src/components/CircleChart.tsx:229-236 | One gradient per segment, each the `ToGradient` of its segment, oriented by its inner endpoints. |
| Circle.SelectionAngle | src/components/CircleChart.tsx:336-345 | A full-circle segment reports 0. Any other segment reports its middle angle plus the rotation when that is non-negative, and that value plus 360 when it is negative. The result is non-negative whenever the middle angle plus the rotation is at least -360. |
| Circle.SelectionAngleInRange | src/components/CircleChart.tsx:334-348 | With the default rotation -90 and a non-negative input summing to 1, every segment reports an angle in [0, 360). |
| Circle.DoughnutChart.constructor | src/components/CircleChart.tsx:254-259 | Empty current and previous series, no click angles, no paths or gradients, and progress 0. |
| Circle.DoughnutChart.OnData | src/components/CircleChart.tsx:250-301 | More values than colour pairs fails with "Maximum segments exceeded" and leaves the state unchanged (lines 250-252). Otherwise (lines 293-301) cur is the percentage-normalised data and prev is the demoted old cur. The click angles are `Degrees(cur)`, progress restarts at 0, and the drawn paths and gradients are left for the next `Frame` call. |
| Circle.DoughnutChart.Frame | src/components/CircleChart.tsx:265-275 | Paths and gradients are those of the blended series, one per segment. At progress 1 the drawn angles are the click angles. |
| Circle.DoughnutChart.Select | src/components/CircleChart.tsx:334-348 | Returns `SelectionAngle` of the clicked segment. With rotation -90 and a distribution as the current series, the angle is in [0, 360). |
| Area.ToPoints | src/components/AreaChart.tsx:61-69 | One point per value. |
| Area.PointsSpanWidth | src/components/AreaChart.tsx:65-66 | The first point is at x = 0 and the last at x = width. |
| Area.PointHeights | src/components/AreaChart.tsx:63-67 | A value of 1 is drawn at the top padding. A value of 0 is drawn at the bottom of the band, `height - height*horizon + padding`. |
| Area.PointsLeftToRight | src/components/AreaChart.tsx:66 | x strictly increases with the index when the width is positive. |
| Area.LargerValueDrawnHigher | src/components/AreaChart.tsx:67 | A larger value is drawn higher (smaller y) when the plotted band has positive height. |
| Area.GetLine | src/components/AreaChart.tsx:81-88 | The length is the square root of the squared distance from p1 to p2, and the angle is `atan2` of the y and x differences. A point to itself has length `sqrt(0)`. |
| Area.LineLength | src/components/AreaChart.tsx:81-88 | The segment length is non-negative, and 0 from a point to itself. |
| Area.GetControlPoint | src/components/AreaChart.tsx:98-111 | When the two neighbours coincide, or both are missing and fall back to the current point, and `sqrt(0) = 0`, the control point is the current point. |
| Area.ControlPointOffset | src/components/AreaChart.tsx:98-111 | Where cos^2 + sin^2 = 1, the control point lies a fifth of the neighbours' distance away from the current point, reversed or not. |
| Area.ControlPointWithoutSpread | src/components/AreaChart.tsx:98-111 | When both neighbours fall back to the same point, including when both are missing, the control point is the current point. |
| Area.GetBezier | src/components/AreaChart.tsx:120-124 | The command is a cubic curve ending at point i. Its first control point is `GetControlPoint` at point i - 1, between point i - 2 (missing at the start) and point i. Its second is the reversed `GetControlPoint` at point i, between point i - 1 and point i + 1 (missing at the end). |
| Area.BezierControlOffsets | src/components/AreaChart.tsx:98-124 | Where cos^2 + sin^2 = 1, the first control point lies a fifth of the distance from point i - 2 (or i - 1 at the start) to point i away from point i - 1. The second lies a fifth of the distance from point i - 1 to point i + 1 (or i at the end) away from point i. |
| Area.ToCurvePath | src/components/AreaChart.tsx:131-138 | One command per point: a move to the first point, then for each later point k the curve `GetBezier(points[k], k, points)`, which ends at that point. |
| Area.ToLinePath | src/components/AreaChart.tsx:145-152 | One command per point: a move to the first point, then a line to each later point. |
| Area.StrokePassesThrough | src/components/AreaChart.tsx:131-152 | For either stroke, the pen is at data point k after command k. |
| Area.ToClosedPath | src/components/AreaChart.tsx:161-163 | The stroke is kept as a prefix, followed by two lines and a close. The lines go to (width, height) and then (0, height), and the close returns to where the stroke began. |
| Area.FillEndsAtFirstPoint | src/components/AreaChart.tsx:161-163 | The closed fill of either stroke ends at the first data point. |
| Area.StrokeAndFillDrawThrough | src/components/AreaChart.tsx:131-163 | Either stroke, with the fill closed under it, satisfies `DrawsThrough`: the stroke passes through every point in order and the fill ends at the first point. |
| Area.AreaChart.constructor | src/components/AreaChart.tsx:175-179 | Empty series, no stroke or fill, and progress 0. |
| Area.AreaChart.OnData | src/components/AreaChart.tsx:217-224 | cur is the comparison-normalised data and prev is the demoted old cur. Progress restarts at 0, and the stroke and fill are left for the next `Frame` call. |
| Area.AreaChart.Frame | src/components/AreaChart.tsx:187-197 | The stroke (curved or straight) is drawn through the blended points with top padding 2*thickness, and the fill closes it. `DrawsThrough` holds: the stroke passes through every point in order, and the fill ends at the first point. |
| Bar.ToPath | src/components/BarChart.tsx:35-55 | The path is empty exactly when the height is 0. |
| Bar.CapsuleOutline | src/components/BarChart.tsx:50-54 | When height >= width: the bottom cap runs to (width, 0), the side rises by height - width, the top cap returns to x = 0, and the close brings the pen back to the start. The side is the straight vertical `v` of height - width. Both caps have radius width/2, sweep flag 0 and no large-arc flag, so each bulges outward. |
| Bar.LensInsetBounds | src/components/BarChart.tsx:42-43 | For 0 < dy < r, the inset lies strictly in (0, r) and puts (r - inset, dy) on the circle of radius r. |
| Bar.LensOutline | src/components/BarChart.tsx:41-48 | When 0 < height < width: dy = (width - height)/2 with 0 < dy < r, and dx lies in (0, r). The start point lies on the bottom cap's circle. The first arc reaches the mirror point (width - dx, dy), the second arc's displacement is the negation of the first's, and the outline returns to its start. Both arcs have radius r, sweep flag 0 and no large-arc flag, so the return arc bulges the opposite way from the first and the two enclose the lens. |
| Bar.BarChart.constructor | src/components/BarChart.tsx:66-73 | cur and prev are the initial data, the foreground is not drawn yet, and the background is the full-height outline. |
| Bar.BarChart.Sync | src/components/BarChart.tsx:76-82 | The foreground is the outline at `height * input`. At input 1 it is the background shape. |
| Bar.BarChart.Frame | src/components/BarChart.tsx:84-90 | The foreground is drawn for the value interpolated from prev to cur. It is prev's at progress 0, cur's at progress 1, and the background when cur is 1 at progress 1. |
| Bar.BarChart.OnData | src/components/BarChart.tsx:110-118 | Unchanged data redraws the foreground at once and changes nothing else. New data makes the old cur prev, makes the data cur, and restarts the animation at 0. |
| Counter.AnimatedCounter.constructor | src/components/AnimatedCounter.tsx:40-43 | start and end are 0, and cur and prev are the initial data. |
| Counter.AnimatedCounter.OnData | src/components/AnimatedCounter.tsx:45-52 | After any update, end and cur equal the data. A change makes both prev and start the old cur; unchanged data leaves prev and start alone. |
| Counter.CountsFromLastValue | src/components/AnimatedCounter.tsx:45-52 | Mounting with a value, repeating it, then changing it makes the count run from the first value to the second. |

## Left out

- Floating point is not modelled. Numbers are exact reals, and there is no NaN or Infinity.
- `cos`, `sin` and `atan2` stay uninterpreted. The only law assumed of them is cos^2 + sin^2 = 1 (`TrigLaws`). It is only a precondition of the lemmas that put points on circles (`Circle.AtAngleOnCircle`, `Circle.CornersOnCircles`, `Area.ControlPointOffset`).
- `sqrt` is constrained only by `SqrtLaws`: it returns a non-negative root for non-negative arguments, and `sqrt(0) = 0`.
- `Math.pow(x, 2)` is modelled as exact squaring (`Geometry.Square`).
- Path data is a list of commands, not the text the components build. Number formatting and whitespace in the `d` strings are not modelled.
- `Z` and `z` are both modelled as `Close`.
- Area.ToPoints: requires at least two values or none. With a single value the source divides 0 by 0, giving a NaN x coordinate that reals cannot represent.
- Area.AreaChart.Frame: requires the series to have zero or at least two values. It inherits the single-value exclusion of `Area.ToPoints` (the NaN x coordinate), and so does `Area.AreaChart.FramePoints`.
- Circle.DoughnutChart.OnData: restarts its animation by setting the progress to 0. In the source, the animation library may notify its listeners at once, so the data effect would be followed immediately by `Frame(0)`. The model leaves the drawn paths as they were and leaves that frame to a separate `Frame(0)` call. The animation library is not part of this model.
- Area.AreaChart.OnData: restarts its animation by setting the progress to 0. In the source, the animation library may notify its listeners at once, so the data effect would be followed immediately by `Frame(0)`. The model leaves the drawn paths as they were and leaves that frame to a separate `Frame(0)` call. The animation library is not part of this model.
- Bar.BarChart.OnData: restarts its animation by setting the progress to 0. In the source, the animation library may notify its listeners at once, so the data effect would be followed immediately by `Frame(0)`. The model leaves the drawn paths as they were and leaves that frame to a separate `Frame(0)` call. The animation library is not part of this model.
- Utils.Normalize: for empty "comparison" data the source's base is `Math.max()` of nothing (-Infinity). The model uses 0 there; the result is the empty series either way.
- Area.LineLength: states only that the length is non-negative and zero between equal points. The converse (zero length only between equal points) would need more square-root laws.
- Bar.ToPath: for a negative height (data below 0), the source takes the square root of a negative number (NaN). The model applies the uninterpreted root anyway and proves nothing about that case.
- The colour library used by `toColorStops` is a foreign call. It is a parameter: `hex` gives the hex string and `alpha` the opacity.
- The count-up rendering of the counter is not modelled.
- Animation timing is not modelled, nor are the listener registration and removal around `Frame`. Animation progress arrives as the parameter `value`.
- React rendering, hooks scheduling, JSX and the `viewBox`/`transform` strings are not modelled.
- The ring chart's initial paths and gradients are arrays of `undefined` of the data's length. The model starts from empty sequences.
- The click handler's `onSelect` callback and its presence check are not modelled: `Select` returns the angle that would be passed.
- The segment-count check throws during render in the source. The model returns the error from `OnData` and changes no state.
- `toClipPath`, the radial shadow gradient, `AnimatedArrow`, `App.tsx` and the build configuration are not part of this model.

=== FILE: area.dfy ===
/** The area chart: data points, straight and smoothed strokes, the filled
    region under the stroke, and the chart state kept between renders. */
module Area {
  import opened Geometry
  import opened Utils

  /** Spreads the values evenly across `width`, left to right, and places a
      value e at height (1 - e) of the plotted band below `padding`; the band
      is `height` less the share `horizon` kept below it. A single value would
      divide 0 by 0, so it is excluded. */
  function ToPoints(input: seq<real>, width: real, height: real, horizon: real, padding: real): (points: seq<Point>)
    requires |input| != 1
    ensures |points| == |input|
  {
    var count := |input| - 1;
    var base := height * horizon;
    var h := height - base;
    seq(|input|, i requires 0 <= i < |input| =>
      Point(i as real / count as real * width, (1.0 - input[i]) * h + padding))
  }

  /** The first point is at the left edge and the last at the right edge. */
  lemma PointsSpanWidth(input: seq<real>, width: real, height: real, horizon: real, padding: real)
    requires |input| >= 2
    ensures ToPoints(input, width, height, horizon, padding)[0].x == 0.0
    ensures ToPoints(input, width, height, horizon, padding)[|input| - 1].x == width
  {
    var c := (|input| - 1) as real;
    DivideBySelf(c);
    assert ToPoints(input, width, height, horizon, padding)[|input| - 1].x == c / c * width;
  }

  lemma DivideBySelf(c: real)
    requires c != 0.0
    ensures c / c == 1.0
  {
  }

  /** A value of 1 is drawn at the top padding, a value of 0 at the bottom of the plotted band. */
  lemma PointHeights(input: seq<real>, width: real, height: real, horizon: real, padding: real, i: nat)
    requires |input| != 1 && i < |input|
    ensures input[i] == 1.0 ==> ToPoints(input, width, height, horizon, padding)[i].y == padding
    ensures input[i] == 0.0 ==>
      ToPoints(input, width, height, horizon, padding)[i].y == height - height * horizon + padding
  {
  }

  /** The x coordinates strictly increase when the width is positive. */
  lemma PointsLeftToRight(input: seq<real>, width: real, height: real, horizon: real, padding: real, i: nat, j: nat)
    requires |input| != 1 && 0.0 < width
    requires i < j < |input|
    ensures ToPoints(input, width, height, horizon, padding)[i].x < ToPoints(input, width, height, horizon, padding)[j].x
  {
    var c := (|input| - 1) as real;
    assert i as real / c < j as real / c by {
      assert i as real / c * c == i as real && j as real / c * c == j as real;
    }
  }

  /** A larger value is drawn higher (smaller y) when the plotted band has positive height. */
  lemma LargerValueDrawnHigher(input: seq<real>, width: real, height: real, horizon: real, padding: real, i: nat, j: nat)
    requires |input| != 1 && 0.0 < height - height * horizon
    requires i < |input| && j < |input| && input[i] < input[j]
    ensures ToPoints(input, width, height, horizon, padding)[j].y < ToPoints(input, width, height, horizon, padding)[i].y
  {
    var h := height - height * horizon;
    var points := ToPoints(input, width, height, horizon, padding);
    assert points[i].y == (1.0 - input[i]) * h + padding;
    assert points[j].y == (1.0 - input[j]) * h + padding;
    LowerForLarger(input[i], input[j], h, padding);
  }

  lemma LowerForLarger(a: real, b: real, h: real, padding: real)
    requires a < b && 0.0 < h
    ensures (1.0 - b) * h + padding < (1.0 - a) * h + padding
  {
    assert (1.0 - a) * h - (1.0 - b) * h == (b - a) * h;
  }

  /** The length and direction of the segment from p1 to p2. */
  datatype LineData = LineData(length: real, angle: real)

  /** The length is the root of the squared distance and the angle the
      direction of p2 seen from p1; a point to itself has the root of 0 as length. */
  function GetLine(p1: Point, p2: Point, m: Math): (line: LineData)
    ensures line.length == m.sqrt(SquaredDistance(p1, p2))
    ensures line.angle == m.atan2(p2.y - p1.y, p2.x - p1.x)
    ensures p1 == p2 ==> line.length == m.sqrt(0.0)
  {
    var dx := p2.x - p1.x;
    var dy := p2.y - p1.y;
    SquaredDistanceToItself(p1, p2);
    LineData(m.sqrt(Square(dx) + Square(dy)), m.atan2(dy, dx))
  }

  /** A segment's length is non-negative, and zero from a point to itself. */
  lemma LineLength(p1: Point, p2: Point, m: Math)
    requires SqrtLaws(m)
    ensures 0.0 <= GetLine(p1, p2, m).length
    ensures p1 == p2 ==> GetLine(p1, p2, m).length == 0.0
  {
    LengthIsRoot(p1, p2, m);
    SquaredDistanceNonNegative(p1, p2);
    SquaredDistanceToItself(p1, p2);
  }

  /** The squared distance the length is the root of. */
  function SquaredDistance(p1: Point, p2: Point): real
  {
    Square(p2.x - p1.x) + Square(p2.y - p1.y)
  }

  lemma LengthIsRoot(p1: Point, p2: Point, m: Math)
    ensures GetLine(p1, p2, m).length == m.sqrt(SquaredDistance(p1, p2))
  {
  }

  lemma SquaredDistanceNonNegative(p1: Point, p2: Point)
    ensures 0.0 <= SquaredDistance(p1, p2)
  {
    SquareNonNegative(p2.x - p1.x);
    SquareNonNegative(p2.y - p1.y);
  }

  lemma SquaredDistanceToItself(p1: Point, p2: Point)
    ensures p1 == p2 ==> SquaredDistance(p1, p2) == 0.0
  {
    if p1 == p2 {
      assert p2.x - p1.x == 0.0 && p2.y - p1.y == 0.0;
    }
  }

  /** The Bezier control point at `cur`: offset from `cur` along the direction
      from its previous to its next neighbour (reversed on request) by a fifth
      of their distance. A missing neighbour is replaced by `cur` itself. */
  function GetControlPoint(cur: Point, prev: Option<Point>, next: Option<Point>, reverse: bool, m: Math): (cp: Point)
    ensures prev.GetOr(cur) == next.GetOr(cur) && m.sqrt(0.0) == 0.0 ==> cp == cur
  {
    var p := prev.GetOr(cur);
    var n := next.GetOr(cur);
    var smoothing := 0.2;
    var o := GetLine(p, n, m);
    var angle := o.angle + (if reverse then m.pi else 0.0);
    var length := o.length * smoothing;
    Point(cur.x + m.cos(angle) * length, cur.y + m.sin(angle) * length)
  }

  /** When both neighbours fall back to the same point (in particular when
      both are missing) the offset has length 0 and the control point is `cur`. */
  lemma ControlPointWithoutSpread(cur: Point, prev: Option<Point>, next: Option<Point>, reverse: bool, m: Math)
    requires SqrtLaws(m)
    requires prev.GetOr(cur) == next.GetOr(cur)
    ensures GetControlPoint(cur, prev, next, reverse, m) == cur
  {
    LineLength(prev.GetOr(cur), next.GetOr(cur), m);
  }

  /** Where cos^2 + sin^2 = 1, the control point lies a fifth of the
      neighbours' distance away from `cur`, whichever way it is turned. */
  lemma ControlPointOffset(cur: Point, prev: Option<Point>, next: Option<Point>, reverse: bool, m: Math)
    requires TrigLaws(m)
    ensures var cp := GetControlPoint(cur, prev, next, reverse, m);
      var length := GetLine(prev.GetOr(cur), next.GetOr(cur), m).length;
      Square(cp.x - cur.x) + Square(cp.y - cur.y) == Square(length * 0.2)
  {
    var o := GetLine(prev.GetOr(cur), next.GetOr(cur), m);
    var angle := o.angle + (if reverse then m.pi else 0.0);
    var co, si, d := m.cos(angle), m.sin(angle), o.length * 0.2;
    var cp := GetControlPoint(cur, prev, next, reverse, m);
    assert cp.x - cur.x == co * d && cp.y - cur.y == si * d;
    calc {
      Square(co * d) + Square(si * d);
      (co * co) * (d * d) + (si * si) * (d * d);
      (co * co + si * si) * (d * d);
      (Square(co) + Square(si)) * (d * d);
      Square(d);
    }
  }

  /** The point at index i, or none past either end (a JavaScript out-of-range read). */
  function PointAt(a: seq<Point>, i: int): Option<Point>
  {
    if 0 <= i < |a| then Some(a[i]) else None
  }

  /** The cubic Bezier command from point i - 1 to point i = p. Its first
      control point leaves a[i - 1] along the direction from a[i - 2] to p;
      its second one enters p against the direction from a[i - 1] to a[i + 1]. */
  function GetBezier(p: Point, i: nat, a: seq<Point>, m: Math): (c: Command)
    requires 1 <= i < |a|
    ensures c.CurveTo? && c.x == p.x && c.y == p.y
    ensures Point(c.x1, c.y1) == GetControlPoint(a[i - 1], PointAt(a, i - 2), Some(p), false, m)
    ensures Point(c.x2, c.y2) == GetControlPoint(p, Some(a[i - 1]), PointAt(a, i + 1), true, m)
  {
    var cps := GetControlPoint(a[i - 1], PointAt(a, i - 2), Some(p), false, m);
    var cpe := GetControlPoint(p, Some(a[i - 1]), PointAt(a, i + 1), true, m);
    CurveTo(cps.x, cps.y, cpe.x, cpe.y, p.x, p.y)
  }

  /** Where cos^2 + sin^2 = 1, the first control point lies a fifth of the
      distance from a[i - 2] (or a[i - 1] at the start) to p away from
      a[i - 1], and the second a fifth of the distance from a[i - 1] to
      a[i + 1] (or p at the end) away from p. */
  lemma BezierControlOffsets(p: Point, i: nat, a: seq<Point>, m: Math)
    requires TrigLaws(m)
    requires 1 <= i < |a|
    ensures var c := GetBezier(p, i, a, m);
      var before := GetLine(PointAt(a, i - 2).GetOr(a[i - 1]), p, m).length;
      var after := GetLine(a[i - 1], PointAt(a, i + 1).GetOr(p), m).length;
      && Square(c.x1 - a[i - 1].x) + Square(c.y1 - a[i - 1].y) == Square(before * 0.2)
      && Square(c.x2 - p.x) + Square(c.y2 - p.y) == Square(after * 0.2)
  {
    ControlPointOffset(a[i - 1], PointAt(a, i - 2), Some(p), false, m);
    ControlPointOffset(p, Some(a[i - 1]), PointAt(a, i + 1), true, m);
  }

  /** A stroke that moves to the first point and then draws a line or curve
      ending at each later point has the pen at point k after command k. */
  lemma PassesThrough(path: Path, points: seq<Point>)
    requires |path| == |points| > 0
    requires path[0] == MoveToPoint(points[0])
    requires forall k :: 1 <= k < |path| ==>
      (path[k].LineTo? || path[k].CurveTo?) && path[k].x == points[k].x && path[k].y == points[k].y
    ensures forall k :: 0 <= k < |points| ==> Trace(path[..k + 1]).at == points[k]
  {
    forall k | 0 <= k < |points|
      ensures Trace(path[..k + 1]).at == points[k]
    {
      TraceStep(path, k);
    }
  }

  /** The smoothed stroke: a move to the first point, then one curve ending
      at each later point. */
  function ToCurvePath(points: seq<Point>, m: Math): (path: Path)
    ensures |path| == |points|
    ensures |points| > 0 ==> path[0] == MoveToPoint(points[0])
    ensures forall k :: 1 <= k < |path| ==> path[k] == GetBezier(points[k], k, points, m)
    ensures forall k :: 1 <= k < |path| ==>
      path[k].CurveTo? && path[k].x == points[k].x && path[k].y == points[k].y
  {
    seq(|points|, k requires 0 <= k < |points| =>
      if k == 0 then MoveToPoint(points[0]) else GetBezier(points[k], k, points, m))
  }

  /** The straight stroke: a move to the first point, then one line to each
      later point. */
  function ToLinePath(points: seq<Point>): (path: Path)
    ensures |path| == |points|
    ensures |points| > 0 ==> path[0] == MoveToPoint(points[0])
    ensures forall k :: 1 <= k < |path| ==> path[k] == LineTo(points[k].x, points[k].y)
  {
    if |points| == 0 then []
    else [MoveToPoint(points[0])] + seq(|points| - 1, k requires 0 <= k < |points| - 1 => LineTo(points[k + 1].x, points[k + 1].y))
  }

  /** Either stroke passes through every data point in order: after command
      k the pen is at point k. */
  lemma StrokePassesThrough(points: seq<Point>, smooth: bool, m: Math)
    ensures var stroke := if smooth then ToCurvePath(points, m) else ToLinePath(points);
      forall k :: 0 <= k < |points| ==> Trace(stroke[..k + 1]).at == points[k]
  {
    if |points| > 0 {
      PassesThrough(if smooth then ToCurvePath(points, m) else ToLinePath(points), points);
    }
  }

  /** The filled region: the stroke unchanged, then down to the bottom-right
      corner, across to the bottom-left corner, and closed back to where the
      stroke's subpath began. */
  function ToClosedPath(line: Path, width: real, height: real): (fill: Path)
    ensures |fill| == |line| + 3 && fill[..|line|] == line
    ensures fill[|line|].LineTo? && fill[|line| + 1].LineTo? && fill[|line| + 2] == Close
    ensures Trace(fill[..|line| + 1]).at == Point(width, height)
    ensures Trace(fill[..|line| + 2]).at == Point(0.0, height)
    ensures Trace(fill).at == Trace(line).start
  {
    var fill := line + [LineTo(width, height), LineTo(0.0, height), Close];
    assert fill[..|line|] == line;
    TraceStep(fill, |line|);
    TraceStep(fill, |line| + 1);
    TraceStep(fill, |line| + 2);
    assert fill[..|line| + 3] == fill;
    fill
  }

  /** The stroke of either kind, closed into the fill, ends at the first data point. */
  lemma FillEndsAtFirstPoint(points: seq<Point>, smooth: bool, width: real, height: real, m: Math)
    requires |points| > 0
    ensures var stroke := if smooth then ToCurvePath(points, m) else ToLinePath(points);
      Trace(ToClosedPath(stroke, width, height)).at == points[0]
  {
    var stroke := if smooth then ToCurvePath(points, m) else ToLinePath(points);
    OneSubpathStart(stroke, |stroke|);
    assert stroke[..|stroke|] == stroke;
  }

  /** A stroke and its fill drawn for `points`: the stroke passes through
      every point in order and the fill ends back at the first point. */
  ghost predicate DrawsThrough(stroke: Path, fill: Path, points: seq<Point>)
  {
    && |stroke| == |points|
    && (forall k :: 0 <= k < |points| ==> Trace(stroke[..k + 1]).at == points[k])
    && (|points| > 0 ==> Trace(fill).at == points[0])
  }

  /** Either stroke and the fill closed under it draw through the points. */
  lemma StrokeAndFillDrawThrough(points: seq<Point>, smooth: bool, width: real, height: real, m: Math)
    ensures var stroke := if smooth then ToCurvePath(points, m) else ToLinePath(points);
      DrawsThrough(stroke, ToClosedPath(stroke, width, height), points)
  {
    StrokePassesThrough(points, smooth, m);
    if |points| > 0 {
      FillEndsAtFirstPoint(points, smooth, width, height, m);
    }
  }

  // ----- Chart state -----

  /** The state an area chart keeps between renders. */
  class AreaChart {
    const width: real
    const height: real
    const horizon: real
    const thickness: real
    const smooth: bool
    const math: Math
    /** The series the running animation starts from. */
    var prev: seq<real>
    /** The normalised series of the latest data. */
    var cur: seq<real>
    var lineFill: Path
    var shapeFill: Path
    /** The animation progress last drawn or restarted. */
    var progress: real

    ghost predicate Valid()
      reads this
    {
      |prev| == |cur|
    }

    /** The state before the first data effect; the default configuration is
        width 140, height 60, horizon 0.4, thickness 2, smoothed. */
    constructor (width: real, height: real, horizon: real, thickness: real, smooth: bool, math: Math)
      ensures Valid()
      ensures this.width == width && this.height == height && this.horizon == horizon
      ensures this.thickness == thickness && this.smooth == smooth && this.math == math
      ensures prev == [] && cur == [] && lineFill == [] && shapeFill == [] && progress == 0.0
    {
      this.width, this.height, this.horizon := width, height, horizon;
      this.thickness, this.smooth, this.math := thickness, smooth, math;
      prev, cur := [], [];
      lineFill, shapeFill := [], [];
      progress := 0.0;
    }

    /** New data: the old current series is demoted to previous (zeros if the
        length changed), the data normalised by its maximum becomes current,
        and the animation restarts from 0. */
    method OnData(data: seq<real>)
      requires Valid()
      modifies this
      ensures Valid()
      ensures cur == Normalize(data, "comparison").value
      ensures prev == Demote(old(cur), cur)
      ensures progress == 0.0
      ensures lineFill == old(lineFill) && shapeFill == old(shapeFill)
    {
      prev := cur;
      cur := Normalize(data, "comparison").value;
      if |prev| != |cur| {
        prev := seq(|cur|, _ => 0.0);
      }
      progress := 0.0;
    }

    /** The data points drawn at animation progress `value`; the top padding is twice the thickness. */
    function FramePoints(value: real): (points: seq<Point>)
      reads this`prev, this`cur
      requires |prev| == |cur| && |cur| != 1
      ensures |points| == |cur|
    {
      ToPoints(Blend(prev, cur, value), width, height, horizon, thickness * 2.0)
    }

    /** One animation frame: the stroke through the blended points and the
        fill closed under it. The stroke passes through every point in order
        and the fill ends back at the first point. */
    method Frame(value: real)
      requires Valid() && |cur| != 1
      modifies this`lineFill, this`shapeFill, this`progress
      ensures Valid()
      ensures lineFill == (if smooth then ToCurvePath(FramePoints(value), math) else ToLinePath(FramePoints(value)))
      ensures shapeFill == ToClosedPath(lineFill, width, height)
      ensures progress == value
      ensures DrawsThrough(lineFill, shapeFill, FramePoints(value))
    {
      var input := Blend(prev, cur, value);
      var points := ToPoints(input, width, height, horizon, thickness * 2.0);
      var stroke := if smooth then ToCurvePath(points, math) else ToLinePath(points);
      StrokeAndFillDrawThrough(points, smooth, width, height, math);
      lineFill, shapeFill, progress := stroke, ToClosedPath(stroke, width, height), value;
    }
  }
}

=== FILE: bar.dfy ===
/** The bar chart: the capsule or lens outline of a bar filled to a height,
    and the chart state kept between renders. */
module Bar {
  import opened Geometry
  import opened Utils

  /** How far in from the left edge the lens starts: the horizontal offset at
      which the circle of radius r around (r, 0) reaches height dy. */
  function LensInset(r: real, dy: real, m: Math): real
  {
    r - m.sqrt(Square(r) - Square(dy))
  }

  /** The outline of a bar `width` wide filled to `height`, relative to the
      centre of its bottom cap. Height 0 is the empty path. A bar at least as
      tall as it is wide is a capsule: two half circles of radius width/2
      joined by straight sides. A shorter bar is a lens: the part of the
      bottom cap's circle below a chord, cut off by the mirrored arc. */
  function ToPath(width: real, height: real, m: Math): (path: Path)
    ensures path == [] <==> height == 0.0
  {
    if height == 0.0 then []
    else
      var r := width / 2.0;
      var h := height - width;
      if h < 0.0 then
        var dy := -h / 2.0;
        var dx := LensInset(r, dy, m);
        [MoveTo(dx, dy),
         ArcBy(r, r, 0.0, 0, 0, 2.0 * (r - dx), 0.0),
         ArcBy(r, r, 0.0, 0, 0, 2.0 * (dx - r), 0.0),
         Close]
      else
        [MoveTo(0.0, 0.0),
         ArcBy(r, r, 0.0, 0, 0, width, 0.0),
         VerticalBy(-h),
         ArcBy(r, r, 0.0, 0, 0, -width, 0.0),
         Close]
  }

  /** The capsule: the bottom cap runs from (0, 0) to (width, 0), the right
      side rises by height - width, the top cap returns to the left side, and
      the close draws the left side back down to the start. With two caps of
      radius width/2 the outline is `height` tall. */
  lemma CapsuleOutline(width: real, height: real, m: Math)
    requires height != 0.0 && width <= height
    ensures var path := ToPath(width, height, m);
      && |path| == 5
      && path[0] == MoveTo(0.0, 0.0)
      && path[1].ArcBy? && path[1].rx == path[1].ry == width / 2.0
      && path[3].ArcBy? && path[3].rx == path[3].ry == width / 2.0
      && path[1].sweep == path[3].sweep == 0 && path[1].largeArc == path[3].largeArc == 0
      && path[2] == VerticalBy(width - height)
      && Trace(path[..2]).at == Point(width, 0.0)
      && Trace(path[..3]).at == Point(width, width - height)
      && Trace(path[..4]).at == Point(0.0, width - height)
      && path[4] == Close
      && Trace(path).at == Point(0.0, 0.0)
  {
    var path := ToPath(width, height, m);
    TraceStep(path, 0);
    TraceStep(path, 1);
    TraceStep(path, 2);
    TraceStep(path, 3);
    TraceStep(path, 4);
    assert path[..5] == path;
  }

  /** For a rise dy strictly inside the radius, the root is strictly between 0
      and r, and (r - inset, dy) lies on the circle of radius r around the origin. */
  lemma LensInsetBounds(r: real, dy: real, m: Math)
    requires SqrtLaws(m)
    requires 0.0 < dy < r
    ensures 0.0 < LensInset(r, dy, m) < r
    ensures Square(r - LensInset(r, dy, m)) + Square(dy) == Square(r)
  {
    SquareMonotone(dy, r);
    var s := m.sqrt(Square(r) - Square(dy));
    assert 0.0 <= s && Square(s) == Square(r) - Square(dy);
    RootBelow(s, r, dy);
    RootAbove(s, r, dy);
    assert r - LensInset(r, dy, m) == s;
  }

  /** A non-negative root of r^2 - dy^2, for 0 < dy, is below r. */
  lemma RootBelow(s: real, r: real, dy: real)
    requires 0.0 <= s && 0.0 < dy && 0.0 < r
    requires Square(s) == Square(r) - Square(dy)
    ensures s < r
  {
    SquareMonotone(0.0, dy);
    if r < s {
      SquareMonotone(r, s);
    }
  }

  /** A non-negative root of r^2 - dy^2, for dy < r, is positive. */
  lemma RootAbove(s: real, r: real, dy: real)
    requires 0.0 <= s && 0.0 < dy < r
    requires Square(s) == Square(r) - Square(dy)
    ensures 0.0 < s
  {
    SquareMonotone(dy, r);
  }

  /** The lens, for 0 < height < width: it starts at (dx, dy) with dy half the
      shortfall of the height below the width, strictly between 0 and the
      radius, and dx strictly inside the left half. The start lies on the
      bottom cap's circle, the first arc crosses to the mirror point
      (width - dx, dy), the second arc's displacement is the first one's
      negation, and the outline closes where it began. */
  lemma LensOutline(width: real, height: real, m: Math)
    requires SqrtLaws(m)
    requires 0.0 < height < width
    ensures var path := ToPath(width, height, m);
      var r := width / 2.0;
      && |path| == 4
      && path[0].MoveTo? && path[3] == Close
      && path[0].y == (width - height) / 2.0
      && 0.0 < path[0].y < r
      && 0.0 < path[0].x < r
      && Square(r - path[0].x) + Square(path[0].y) == Square(r)
      && path[1].ArcBy? && path[2].ArcBy?
      && path[1].rx == path[1].ry == path[2].rx == path[2].ry == r
      && path[1].sweep == path[2].sweep == 0 && path[1].largeArc == path[2].largeArc == 0
      && path[2].dx == -path[1].dx && path[1].dy == path[2].dy == 0.0
      && Trace(path[..2]).at == Point(width - path[0].x, path[0].y)
      && Trace(path[..3]).at == Trace(path[..3]).start
      && SubpathsReturn(path)
  {
    var path := ToPath(width, height, m);
    var r := width / 2.0;
    var dy := -(height - width) / 2.0;
    LensInsetBounds(r, dy, m);
    TraceStep(path, 0);
    TraceStep(path, 1);
    TraceStep(path, 2);
  }

  // ----- Chart state -----

  /** The state a bar chart keeps between renders. */
  class BarChart {
    const width: real
    const height: real
    const math: Math
    /** The background: the bar filled to its whole height. */
    const shape: Path
    /** The value the running animation starts from. */
    var prev: real
    /** The latest data value, a share of the height between 0 and 1. */
    var cur: real
    /** The foreground path; none before it is first drawn. */
    var dataFill: Option<Path>
    /** The animation progress last drawn or restarted. */
    var progress: real

    ghost predicate Valid()
      reads this
    {
      shape == ToPath(width, height, math)
    }

    /** The foreground for a fill share `input` of the height. */
    function Foreground(input: real): Path
    {
      ToPath(width, height * input, math)
    }

    /** The state before the first data effect; the default size is 24 by 100. */
    constructor (data: real, width: real, height: real, math: Math)
      ensures Valid()
      ensures this.width == width && this.height == height && this.math == math
      ensures shape == ToPath(width, height, math)
      ensures cur == data && prev == data
      ensures dataFill == None && progress == 0.0
    {
      this.width, this.height, this.math := width, height, math;
      shape := ToPath(width, height, math);
      cur, prev := data, data;
      dataFill := None;
      progress := 0.0;
    }

    /** The foreground for a fill share `input`. */
    method Sync(input: real)
      requires Valid()
      modifies this`dataFill
      ensures Valid()
      ensures dataFill == Some(Foreground(input))
      ensures input == 1.0 ==> dataFill == Some(shape)
    {
      dataFill := Some(Foreground(input));
    }

    /** One animation frame: the foreground for the value blended from prev to cur. */
    method Frame(value: real)
      requires Valid()
      modifies this`dataFill, this`progress
      ensures Valid()
      ensures dataFill == Some(Foreground(Interpolate(prev, cur, value)))
      ensures value == 0.0 ==> dataFill == Some(Foreground(prev))
      ensures value == 1.0 ==> dataFill == Some(Foreground(cur))
      ensures value == 1.0 && cur == 1.0 ==> dataFill == Some(shape)
      ensures progress == value
    {
      Sync(Interpolate(prev, cur, value));
      progress := value;
    }

    /** New data: the same value redraws at once and changes nothing else;
        a different value becomes current, the old one previous, and the
        animation restarts from 0 with the foreground left as it was. */
    method OnData(data: real)
      requires Valid()
      modifies this`prev, this`cur, this`dataFill, this`progress
      ensures Valid()
      ensures old(cur) == data ==>
        dataFill == Some(Foreground(data)) && prev == old(prev) && cur == data
        && progress == old(progress)
      ensures old(cur) != data ==>
        prev == old(cur) && cur == data && progress == 0.0 && dataFill == old(dataFill)
    {
      if cur == data {
        Sync(data);
      } else {
        prev := cur;
        cur := data;
        progress := 0.0;
      }
    }
  }
}

=== FILE: circle.dfy ===
/** The ring (donut) chart: segment angles, ring-segment paths, gradient
    orientation, and the chart state kept between renders. */
module Circle {
  import opened Geometry
  import opened Utils

  /** Where a segment starts and how far it sweeps, in degrees. */
  datatype DegreeData = DegreeData(startDeg: real, sweepDeg: real)

  /** The angles of every segment: the start is 360 times the sum of the
      values before it, the sweep 360 times its own value. */
  function Degrees(input: seq<real>): (segs: seq<DegreeData>)
    ensures |segs| == |input|
  {
    seq(|input|, i requires 0 <= i < |input| => DegreeData(360.0 * Sum(input[..i]), 360.0 * input[i]))
  }

  /** The angles of every segment, accumulated in one pass. */
  method ToDegrees(input: seq<real>) returns (segs: seq<DegreeData>)
    ensures segs == Degrees(input)
  {
    var acc := 0.0;
    segs := [];
    for i := 0 to |input|
      invariant acc == Sum(input[..i])
      invariant segs == Degrees(input)[..i]
    {
      segs := segs + [DegreeData(acc / 1.0 * 360.0, input[i] / 1.0 * 360.0)];
      SumSnoc(input, i);
      acc := acc + input[i];
    }
  }

  function Sweeps(segs: seq<DegreeData>): (sweeps: seq<real>)
    ensures |sweeps| == |segs|
  {
    seq(|segs|, i requires 0 <= i < |segs| => segs[i].sweepDeg)
  }

  /** The first segment starts at 0 and each next one starts where the previous one ends. */
  lemma DegreesAreContiguous(input: seq<real>)
    ensures |input| > 0 ==> Degrees(input)[0].startDeg == 0.0
    ensures forall i :: 0 <= i < |input| - 1 ==>
      Degrees(input)[i + 1].startDeg == Degrees(input)[i].startDeg + Degrees(input)[i].sweepDeg
  {
    assert input[..0] == [];
    forall i | 0 <= i < |input| - 1
      ensures Degrees(input)[i + 1].startDeg == Degrees(input)[i].startDeg + Degrees(input)[i].sweepDeg
    {
      SumSnoc(input, i);
    }
  }

  /** Each start angle is the sum of the sweeps before it. */
  lemma {:induction false} StartIsSweepsBefore(input: seq<real>, k: nat)
    requires k < |input|
    ensures Degrees(input)[k].startDeg == Sum(Sweeps(Degrees(input))[..k])
  {
    var sweeps := Sweeps(Degrees(input));
    if k == 0 {
      assert input[..0] == [] && sweeps[..0] == [];
    } else {
      StartIsSweepsBefore(input, k - 1);
      SumSnoc(sweeps, k - 1);
      DegreesAreContiguous(input);
    }
  }

  /** The last segment ends at 360 times the input's sum. */
  lemma LastSegmentEnd(input: seq<real>)
    requires |input| > 0
    ensures Degrees(input)[|input| - 1].startDeg + Degrees(input)[|input| - 1].sweepDeg == 360.0 * Sum(input)
  {
    var n := |input|;
    SumSnoc(input, n - 1);
    assert input[..n] == input;
  }

  /** The sweeps add up to 360 times the input's sum. */
  lemma SweepsTotal(input: seq<real>)
    ensures Sum(Sweeps(Degrees(input))) == 360.0 * Sum(input)
  {
    var n := |input|;
    var sweeps := Sweeps(Degrees(input));
    if n > 0 {
      StartIsSweepsBefore(input, n - 1);
      SumSnoc(sweeps, n - 1);
      assert sweeps[..n] == sweeps;
      assert Sum(sweeps) == Degrees(input)[n - 1].startDeg + Degrees(input)[n - 1].sweepDeg;
      LastSegmentEnd(input);
    }
  }

  /** For a non-negative series summing to 1, such as a "percentage" series,
      every segment lies within [0, 360] and the last one ends at exactly 360. */
  lemma DistributionFillsCircle(input: seq<real>)
    requires NonNegative(input) && Sum(input) == 1.0
    ensures forall i :: 0 <= i < |input| ==>
      && 0.0 <= Degrees(input)[i].startDeg
      && 0.0 <= Degrees(input)[i].sweepDeg
      && Degrees(input)[i].startDeg + Degrees(input)[i].sweepDeg <= 360.0
    ensures |input| > 0 ==>
      Degrees(input)[|input| - 1].startDeg + Degrees(input)[|input| - 1].sweepDeg == 360.0
  {
    forall i | 0 <= i < |input|
      ensures 0.0 <= Degrees(input)[i].startDeg
      ensures Degrees(input)[i].startDeg + Degrees(input)[i].sweepDeg <= 360.0
    {
      PrefixSumBounded(input, i);
    }
    if |input| > 0 {
      LastSegmentEnd(input);
    }
  }

  // ----- Segment structure -----

  /** A segment's angles and its four corners: p1, p2 on the inner circle at
      the start and end angles, P1, P2 on the outer circle at the same angles. */
  datatype StructureData = StructureData(
    p1: Point, p2: Point, P1: Point, P2: Point, startDeg: real, sweepDeg: real)

  /** The point at `radius` and angle `rad` around the chart centre (R, R). */
  function AtAngle(m: Math, R: real, radius: real, rad: real): Point
  {
    Point(R + radius * m.cos(rad), R + radius * m.sin(rad))
  }

  /** An angle in degrees converted to radians. */
  function Radians(m: Math, deg: real): real
  {
    m.pi * deg / 180.0
  }

  /** `inner` and `outer` lie in the same direction from the centre (c, c),
      their offsets in the ratio r : R (for positive radii, one ray). */
  ghost predicate OnOneRay(inner: Point, outer: Point, c: real, R: real, r: real)
  {
    r * (outer.x - c) == R * (inner.x - c) && r * (outer.y - c) == R * (inner.y - c)
  }

  /** `p` lies on the circle of the given radius around (c, c). */
  ghost predicate OnCircle(p: Point, c: real, radius: real)
  {
    Square(p.x - c) + Square(p.y - c) == Square(radius)
  }

  /** Inner and outer points at one angle lie in one direction from the
      centre, their offsets in the ratio of the radii; no law of cos and sin
      is needed for this. */
  lemma InnerOuterOnOneRay(m: Math, R: real, r: real)
    ensures forall rad :: OnOneRay(AtAngle(m, R, r, rad), AtAngle(m, R, R, rad), R, R, r)
  {
    forall rad
      ensures OnOneRay(AtAngle(m, R, r, rad), AtAngle(m, R, R, rad), R, R, r)
    {
      assert r * (R * m.cos(rad)) == R * (r * m.cos(rad));
      assert r * (R * m.sin(rad)) == R * (r * m.sin(rad));
    }
  }

  /** Where cos^2 + sin^2 = 1, the point at `radius` and any angle lies on
      the circle of that radius around the centre. */
  lemma AtAngleOnCircle(m: Math, c: real, radius: real, rad: real)
    requires TrigLaws(m)
    ensures OnCircle(AtAngle(m, c, radius, rad), c, radius)
  {
    var co, si := m.cos(rad), m.sin(rad);
    var p := AtAngle(m, c, radius, rad);
    assert p.x - c == radius * co && p.y - c == radius * si;
    calc {
      Square(radius * co) + Square(radius * si);
      radius * radius * (co * co) + radius * radius * (si * si);
      radius * radius * (co * co + si * si);
      radius * radius * (Square(co) + Square(si));
      Square(radius);
    }
  }

  function ToStructs(input: seq<real>, R: real, r: real, m: Math): (structs: seq<StructureData>)
    ensures |structs| == |input|
    ensures forall i :: 0 <= i < |input| ==>
      structs[i].startDeg == Degrees(input)[i].startDeg && structs[i].sweepDeg == Degrees(input)[i].sweepDeg
    ensures forall i :: 0 <= i < |input| ==>
      var d := Degrees(input)[i];
      && structs[i].p1 == AtAngle(m, R, r, Radians(m, d.startDeg))
      && structs[i].p2 == AtAngle(m, R, r, Radians(m, d.startDeg + d.sweepDeg))
      && structs[i].P1 == AtAngle(m, R, R, Radians(m, d.startDeg))
      && structs[i].P2 == AtAngle(m, R, R, Radians(m, d.startDeg + d.sweepDeg))
    ensures forall i :: 0 <= i < |input| ==>
      OnOneRay(structs[i].p1, structs[i].P1, R, R, r) && OnOneRay(structs[i].p2, structs[i].P2, R, R, r)
  {
    var degrees := Degrees(input);
    InnerOuterOnOneRay(m, R, r);
    seq(|degrees|, i requires 0 <= i < |degrees| =>
      var d := degrees[i];
      var startRad := Radians(m, d.startDeg);
      var endRad := Radians(m, d.startDeg + d.sweepDeg);
      StructureData(
        AtAngle(m, R, r, startRad), AtAngle(m, R, r, endRad),
        AtAngle(m, R, R, startRad), AtAngle(m, R, R, endRad),
        d.startDeg, d.sweepDeg))
  }

  /** Where cos^2 + sin^2 = 1, the inner corners of every segment lie on the
      inner circle and the outer corners on the outer circle. */
  lemma CornersOnCircles(input: seq<real>, R: real, r: real, m: Math, i: nat)
    requires TrigLaws(m)
    requires i < |input|
    ensures var s := ToStructs(input, R, r, m)[i];
      && OnCircle(s.p1, R, r) && OnCircle(s.p2, R, r)
      && OnCircle(s.P1, R, R) && OnCircle(s.P2, R, R)
  {
    var d := Degrees(input)[i];
    AtAngleOnCircle(m, R, r, Radians(m, d.startDeg));
    AtAngleOnCircle(m, R, r, Radians(m, d.startDeg + d.sweepDeg));
    AtAngleOnCircle(m, R, R, Radians(m, d.startDeg));
    AtAngleOnCircle(m, R, R, Radians(m, d.startDeg + d.sweepDeg));
  }

  // ----- Paths -----

  /** Two concentric full circles around (R, R), each drawn as two half arcs
      between the ends of a horizontal diameter: the outer one through
      (2R, R) and (0, R), the inner one through (R + r, R) and (R - r, R). */
  function ToRingPath(R: real, r: real): (path: Path)
    ensures |path| == 7
    ensures path[0] == MoveTo(R + R, R) && path[3] == MoveTo(R + r, R)
    ensures forall k :: k in {1, 2} ==> path[k].ArcBy? && path[k].rx == path[k].ry == R
    ensures forall k :: k in {4, 5} ==> path[k].ArcBy? && path[k].rx == path[k].ry == r
    ensures forall k :: k in {1, 2, 4, 5} ==> path[k].sweep == 1
    ensures Trace(path[..2]).at == Point(0.0, R)
    ensures Trace(path[..5]).at == Point(R - r, R)
    ensures path[6] == Close
    ensures SubpathsReturn(path)
  {
    var path := [
      MoveTo(R + R, R),
      ArcBy(R, R, 0.0, 0, 1, -2.0 * R, 0.0),
      ArcBy(R, R, 0.0, 0, 1, 2.0 * R, 0.0),
      MoveTo(R + r, R),
      ArcBy(r, r, 0.0, 0, 1, -2.0 * r, 0.0),
      ArcBy(r, r, 0.0, 0, 1, 2.0 * r, 0.0),
      Close];
    TraceStep(path, 0); TraceStep(path, 1); TraceStep(path, 2);
    TraceStep(path, 3); TraceStep(path, 4); TraceStep(path, 5);
    path
  }

  /** The wedge of one segment: inner arc p1 to p2, joint arc to P2, outer
      arc back to P1, joint arc back to p1. */
  function WedgePath(s: StructureData, R: real, r: real): Path
  {
    var dr := (R - r) / 2.0;
    var flag := if s.sweepDeg > 180.0 then 1 else 0;
    [ MoveTo(s.p1.x, s.p1.y),
      ArcTo(r, r, 0.0, flag, 1, s.p2.x, s.p2.y),
      ArcTo(dr, dr, 0.0, 0, 0, s.P2.x, s.P2.y),
      ArcTo(R, R, 0.0, flag, 0, s.P1.x, s.P1.y),
      ArcTo(dr, dr, 0.0, 0, 1, s.p1.x, s.p1.y),
      Close ]
  }

  /** The path of one segment: empty for no sweep, the full ring for a sweep
      of 360 or more, and otherwise the wedge, whose inner and outer arcs take
      the large-arc flag exactly when the sweep exceeds 180. */
  function SegmentPath(s: StructureData, R: real, r: real): (path: Path)
    ensures path == [] <==> s.sweepDeg == 0.0
    ensures s.sweepDeg >= 360.0 ==> path == ToRingPath(R, r)
    ensures s.sweepDeg != 0.0 && s.sweepDeg < 360.0 ==>
      && |path| == 6
      && path[0] == MoveTo(s.p1.x, s.p1.y)
      && path[1].ArcTo? && path[2].ArcTo? && path[3].ArcTo? && path[4].ArcTo?
      && path[1].rx == path[1].ry == r && path[3].rx == path[3].ry == R
      && path[2].rx == path[2].ry == path[4].rx == path[4].ry == (R - r) / 2.0
      && path[1].sweep == 1 && path[2].sweep == 0 && path[3].sweep == 0 && path[4].sweep == 1
      && (path[1].largeArc == 1 <==> s.sweepDeg > 180.0)
      && (path[3].largeArc == 1 <==> s.sweepDeg > 180.0)
      && path[2].largeArc == 0 && path[4].largeArc == 0
      && Trace(path[..1]).at == s.p1
      && Trace(path[..2]).at == s.p2
      && Trace(path[..3]).at == s.P2
      && Trace(path[..4]).at == s.P1
      && Trace(path[..5]).at == s.p1
      && path[5] == Close
      && SubpathsReturn(path)
  {
    if s.sweepDeg == 0.0 then []
    else if s.sweepDeg >= 360.0 then ToRingPath(R, r)
    else
      var path := WedgePath(s, R, r);
      TraceStep(path, 0); TraceStep(path, 1); TraceStep(path, 2);
      TraceStep(path, 3); TraceStep(path, 4);
      path
  }

  /** One path per segment: a segment without sweep draws nothing, and a
      full-circle segment draws the whole ring. */
  function ToPaths(structs: seq<StructureData>, R: real, r: real): (paths: seq<Path>)
    ensures |paths| == |structs|
    ensures forall i :: 0 <= i < |structs| ==> paths[i] == SegmentPath(structs[i], R, r)
    ensures forall i :: 0 <= i < |structs| ==> (paths[i] == [] <==> structs[i].sweepDeg == 0.0)
    ensures forall i :: 0 <= i < |structs| && structs[i].sweepDeg >= 360.0 ==> paths[i] == ToRingPath(R, r)
  {
    seq(|structs|, i requires 0 <= i < |structs| => SegmentPath(structs[i], R, r))
  }

  // ----- Gradients -----

  /** A linear-gradient vector; each coordinate is 0 or 1 (a fraction of the box). */
  datatype GradientData = GradientData(x1: nat, y1: nat, x2: nat, y2: nat)

  /** The gradient of a segment runs, on each axis, from the side of whichever
      inner endpoint is smaller toward the other one. */
  function ToGradient(s: StructureData): (g: GradientData)
    ensures g.x1 <= 1 && g.x2 <= 1 && g.y1 <= 1 && g.y2 <= 1
    ensures g.x1 + g.x2 == 1 && g.y1 + g.y2 == 1
    ensures g.x1 == 0 <==> s.p1.x < s.p2.x
    ensures g.y1 == 0 <==> s.p1.y < s.p2.y
  {
    GradientData(
      if s.p1.x < s.p2.x then 0 else 1,
      if s.p1.y < s.p2.y then 0 else 1,
      if s.p1.x < s.p2.x then 1 else 0,
      if s.p1.y < s.p2.y then 1 else 0)
  }

  /** One gradient vector per segment, each pointing from the smaller
      inner endpoint coordinate toward the larger one on each axis. */
  function ToGradients(structs: seq<StructureData>): (gradients: seq<GradientData>)
    ensures |gradients| == |structs|
    ensures forall i :: 0 <= i < |structs| ==> gradients[i] == ToGradient(structs[i])
    ensures forall i :: 0 <= i < |structs| ==>
      (gradients[i].x1 == 0 <==> structs[i].p1.x < structs[i].p2.x) &&
      (gradients[i].y1 == 0 <==> structs[i].p1.y < structs[i].p2.y)
  {
    seq(|structs|, i requires 0 <= i < |structs| => ToGradient(structs[i]))
  }

  // ----- Selection -----

  /** The angle reported when a segment is clicked: 0 for a full circle,
      otherwise its middle angle plus the chart rotation, moved up by 360 once
      if negative. */
  function SelectionAngle(d: DegreeData, rotation: real): (angle: real)
    ensures d.sweepDeg == 360.0 ==> angle == 0.0
    ensures d.sweepDeg != 360.0 ==>
      var mid := d.startDeg + d.sweepDeg / 2.0 + rotation;
      && (0.0 <= mid ==> angle == mid)
      && (mid < 0.0 ==> angle == mid + 360.0)
      && (-360.0 <= mid ==> 0.0 <= angle)
  {
    var angle := if d.sweepDeg == 360.0 then 0.0 else d.startDeg + d.sweepDeg / 2.0 + rotation;
    if angle < 0.0 then angle + 360.0 else angle
  }

  /** With the default rotation of -90, every segment of a non-negative series
      summing to 1 reports an angle in [0, 360). */
  lemma SelectionAngleInRange(input: seq<real>, i: nat)
    requires NonNegative(input) && Sum(input) == 1.0
    requires i < |input|
    ensures 0.0 <= SelectionAngle(Degrees(input)[i], -90.0) < 360.0
  {
    PrefixSumBounded(input, i);
  }

  // ----- Chart state -----

  /** The state a ring chart keeps between renders. */
  class DoughnutChart {
    const R: real
    const r: real
    const rotation: real
    const colors: seq<(string, string)>
    const math: Math
    /** The series the running animation starts from. */
    var prev: seq<real>
    /** The normalised series of the latest data. */
    var cur: seq<real>
    /** The segment angles the click handler reads. */
    var hits: seq<DegreeData>
    var paths: seq<Path>
    var gradients: seq<GradientData>
    /** The animation progress last drawn or restarted. */
    var progress: real

    ghost predicate Valid()
      reads this
    {
      |prev| == |cur| && hits == Degrees(cur)
    }

    /** The state before the first data effect; the default configuration is
        R = 75, r = 55, rotation = -90 and five colour pairs. */
    constructor (R: real, r: real, rotation: real, colors: seq<(string, string)>, math: Math)
      ensures Valid()
      ensures this.R == R && this.r == r && this.rotation == rotation
      ensures this.colors == colors && this.math == math
      ensures prev == [] && cur == [] && hits == [] && paths == [] && gradients == []
      ensures progress == 0.0
    {
      this.R, this.r, this.rotation, this.colors, this.math := R, r, rotation, colors, math;
      prev, cur, hits := [], [], [];
      paths, gradients := [], [];
      progress := 0.0;
    }

    /** New data: refused when there are more values than colour pairs;
        otherwise the old current series is demoted to previous (zeros if the
        length changed), the data normalised by its sum becomes current, the
        click angles are recomputed and the animation restarts from 0. */
    method OnData(data: seq<real>) returns (res: Result<()>)
      requires Valid()
      modifies this
      ensures Valid()
      ensures |data| > |colors| ==> res == Err("Maximum segments exceeded") && unchanged(this)
      ensures |data| <= |colors| ==>
        && res == Ok(())
        && cur == Normalize(data, "percentage").value
        && prev == Demote(old(cur), cur)
        && progress == 0.0
        && paths == old(paths) && gradients == old(gradients)
    {
      if |data| > |colors| {
        return Err("Maximum segments exceeded");
      }
      prev := cur;
      cur := Normalize(data, "percentage").value;
      if |prev| != |cur| {
        prev := seq(|cur|, _ => 0.0);
      }
      hits := ToDegrees(cur);
      progress := 0.0;
      res := Ok(());
    }

    /** The segment structure drawn at animation progress `value`. */
    function FrameStructs(value: real): seq<StructureData>
      reads this
      requires |prev| == |cur|
    {
      ToStructs(Blend(prev, cur, value), R, r, math)
    }

    /** One animation frame: paths and gradients of the blended series. At
        progress 1 the drawn segments are exactly those the click handler reads. */
    method Frame(value: real)
      requires Valid()
      modifies this`paths, this`gradients, this`progress
      ensures Valid()
      ensures paths == ToPaths(FrameStructs(value), R, r)
      ensures gradients == ToGradients(FrameStructs(value))
      ensures progress == value
      ensures |paths| == |gradients| == |hits|
      ensures value == 1.0 ==> forall i :: 0 <= i < |hits| ==>
        FrameStructs(value)[i].startDeg == hits[i].startDeg && FrameStructs(value)[i].sweepDeg == hits[i].sweepDeg
    {
      var structs := ToStructs(Blend(prev, cur, value), R, r, math);
      paths := ToPaths(structs, R, r);
      gradients := ToGradients(structs);
      progress := value;
    }

    /** The angle reported for a click on segment i. */
    method Select(i: nat) returns (angle: real)
      requires Valid() && i < |hits|
      ensures angle == SelectionAngle(hits[i], rotation)
      ensures rotation == -90.0 && NonNegative(cur) && Sum(cur) == 1.0 ==> 0.0 <= angle < 360.0
    {
      angle := SelectionAngle(hits[i], rotation);
      if rotation == -90.0 && NonNegative(cur) && Sum(cur) == 1.0 {
        SelectionAngleInRange(cur, i);
      }
    }
  }
}

=== FILE: counter.dfy ===
/** The animated counter: the values a count-up animation runs between. */
module Counter {

  /** The state an animated counter keeps between renders: the count runs
      from `start` to `end`. */
  class AnimatedCounter {
    var start: real
    var end: real
    /** The value before the latest change. */
    var prev: real
    /** The latest data value. */
    var cur: real

    /** The state before the first data effect: the count stands at 0 to 0. */
    constructor (data: real)
      ensures start == 0.0 && end == 0.0
      ensures cur == data && prev == data
    {
      start, end := 0.0, 0.0;
      cur, prev := data, data;
    }

    /** New data: a changed value demotes the current one to previous and to
        the start of the count; the count always ends at the new value. */
    method OnData(data: real)
      modifies this
      ensures cur == data && end == data
      ensures old(cur) != data ==> prev == old(cur) && start == old(cur)
      ensures old(cur) == data ==> prev == old(prev) && start == old(start)
    {
      if cur != data {
        prev := cur;
        cur := data;
        start := prev;
      }
      end := data;
    }
  }

  /** After two updates, the count runs from the first value to the second
      when they differ, and the counter keeps the first as its previous value. */
  method CountsFromLastValue(first: real, second: real) returns (c: AnimatedCounter)
    requires first != second
    ensures c.start == first && c.end == second
    ensures c.prev == first && c.cur == second
  {
    c := new AnimatedCounter(first);
    c.OnData(first);
    c.OnData(second);
  }
}

=== FILE: geometry.dfy ===
/** Plane geometry shared by the charts: points, SVG path commands, a pen that
    follows a path, and the host's floating-point math library, kept abstract. */
module Geometry {

  datatype Point = Point(x: real, y: real)

  /** One SVG path command. Upper-case SVG letters take absolute coordinates,
      lower-case ones take displacements from the current point. */
  datatype Command =
    | MoveTo(x: real, y: real)                                                   // M x y
    | LineTo(x: real, y: real)                                                   // L x y
    | CurveTo(x1: real, y1: real, x2: real, y2: real, x: real, y: real)          // C
    | ArcTo(rx: real, ry: real, rotation: real, largeArc: nat, sweep: nat, x: real, y: real)   // A
    | ArcBy(rx: real, ry: real, rotation: real, largeArc: nat, sweep: nat, dx: real, dy: real) // a
    | VerticalBy(dy: real)                                                       // v
    | Close                                                                      // Z or z

  /** A path is its command list; the empty list is the empty `d` attribute. */
  type Path = seq<Command>

  function MoveToPoint(p: Point): Command { MoveTo(p.x, p.y) }

  /** The pen of an SVG renderer: where it is, and where the current subpath began. */
  datatype Pen = Pen(at: Point, start: Point)

  const Origin := Pen(Point(0.0, 0.0), Point(0.0, 0.0))

  /** The pen after one command. */
  function Step(pen: Pen, c: Command): Pen
  {
    match c
    case MoveTo(x, y) => Pen(Point(x, y), Point(x, y))
    case LineTo(x, y) => pen.(at := Point(x, y))
    case CurveTo(_, _, _, _, x, y) => pen.(at := Point(x, y))
    case ArcTo(_, _, _, _, _, x, y) => pen.(at := Point(x, y))
    case ArcBy(_, _, _, _, _, dx, dy) => pen.(at := Point(pen.at.x + dx, pen.at.y + dy))
    case VerticalBy(dy) => pen.(at := Point(pen.at.x, pen.at.y + dy))
    case Close => pen.(at := pen.start)
  }

  /** The pen after drawing the whole of `path` from the origin. */
  function Trace(path: Path): Pen
    decreases |path|
  {
    if |path| == 0 then Origin else Step(Trace(path[..|path| - 1]), path[|path| - 1])
  }

  /** Drawing one more command steps the pen from where the prefix left it. */
  lemma TraceStep(path: Path, k: nat)
    requires k < |path|
    ensures Trace(path[..k + 1]) == Step(Trace(path[..k]), path[k])
  {
    assert path[..k + 1][..k] == path[..k];
  }

  /** In a path that moves only at its first command, the pen's subpath start
      stays at that first point. */
  lemma {:induction false} OneSubpathStart(path: Path, k: nat)
    requires 0 < k <= |path|
    requires path[0].MoveTo?
    requires forall j :: 0 < j < |path| ==> !path[j].MoveTo?
    ensures Trace(path[..k]).start == Point(path[0].x, path[0].y)
  {
    TraceStep(path, k - 1);
    if k > 1 {
      OneSubpathStart(path, k - 1);
    }
  }

  /** Every subpath is drawn back to its first point: just before each later
      move and before each close, the pen is where the subpath began. */
  ghost predicate SubpathsReturn(path: Path)
  {
    forall k :: 0 < k < |path| && (path[k].MoveTo? || path[k].Close?) ==>
      Trace(path[..k]).at == Trace(path[..k]).start
  }

  /** The host's floating-point functions. They stay uninterpreted: only the
      laws a property needs are assumed of them, as preconditions. */
  datatype Math = Math(
    pi: real,
    cos: real -> real,
    sin: real -> real,
    atan2: (real, real) -> real,
    sqrt: real -> real)

  /** x raised to the power 2, as the host's power function computes it. */
  function Square(x: real): real { x * x }

  /** A square is non-negative. */
  lemma SquareNonNegative(x: real)
    ensures 0.0 <= Square(x)
  {
    if x < 0.0 {
      assert 0.0 < (-x) * (-x);
    } else if x > 0.0 {
      assert 0.0 < x * x;
    }
  }

  /** Squaring is strictly increasing on the non-negative numbers. */
  lemma SquareMonotone(a: real, b: real)
    requires 0.0 <= a < b
    ensures Square(a) < Square(b)
  {
    calc {
      Square(a);
      a * a;
    <= b * a;
      a * b;
    < b * b;
      Square(b);
    }
  }

  /** The square root of a non-negative number is non-negative and squares
      back; the root of 0 is 0. */
  ghost predicate SqrtLaws(m: Math)
  {
    && (forall x: real :: 0.0 <= x ==> 0.0 <= m.sqrt(x) && m.sqrt(x) * m.sqrt(x) == x)
    && m.sqrt(0.0) == 0.0
  }

  /** The Pythagorean identity: cos^2 + sin^2 = 1 at every angle. */
  ghost predicate TrigLaws(m: Math)
  {
    forall x: real :: Square(m.cos(x)) + Square(m.sin(x)) == 1.0
  }
}

=== FILE: utils.dfy ===
/** The chart utilities: gradient colour stops, linear interpolation and
    normalisation of a data series to the range [0, 1]. Numbers are exact reals. */
module Utils {

  datatype Option<T> = None | Some(value: T) {
    /** The value, or `default` when there is none (JavaScript's `x || default` for objects). */
    function GetOr(default: T): T
    {
      match this
      case Some(v) => v
      case None => default
    }
  }

  /** A value, or the message of the error the source throws. */
  datatype Result<T> = Ok(value: T) | Err(error: string)

  // ----- Colour stops -----

  /** A fill colour: one colour string, or a start/end pair. */
  datatype Colors = Single(color: string) | Pair(first: string, last: string)

  datatype ColorStop = ColorStop(offset: nat, stopColor: string, stopOpacity: real)

  /** The two stops of a linear gradient. Parsing a colour is the colour
      library's job: `hex` gives its hexadecimal form and `alpha` its opacity. */
  function ToColorStops(colors: Colors, hex: string -> string, alpha: string -> real): (stops: seq<ColorStop>)
    ensures |stops| == 2
    ensures forall i :: 0 <= i < 2 ==> stops[i].offset == i
    ensures colors.Single? ==> stops[0].stopColor == stops[1].stopColor == hex(colors.color)
    ensures colors.Single? ==> stops[0].stopOpacity == stops[1].stopOpacity == alpha(colors.color)
    ensures colors.Pair? ==> stops[0].stopColor == hex(colors.first) && stops[0].stopOpacity == alpha(colors.first)
    ensures colors.Pair? ==> stops[1].stopColor == hex(colors.last) && stops[1].stopOpacity == alpha(colors.last)
  {
    var pair := match colors
      case Single(c) => [c, c]
      case Pair(a, b) => [a, b];
    seq(2, i requires 0 <= i < 2 => ColorStop(i, hex(pair[i]), alpha(pair[i])))
  }

  // ----- Interpolation -----

  /** The linear blend from `from` to `to` at `progress`; progress is not clamped. */
  function Interpolate(from: real, to: real, progress: real): (r: real)
    ensures progress == 0.0 ==> r == from
    ensures progress == 1.0 ==> r == to
    ensures from == to ==> r == from
  {
    from + (to - from) * progress
  }

  /** Within the animation (progress in [0, 1]) a rising blend stays between its ends. */
  lemma InterpolateRising(from: real, to: real, progress: real)
    requires from <= to
    ensures 0.0 <= progress <= 1.0 ==> from <= Interpolate(from, to, progress) <= to
  {
    if 0.0 <= progress <= 1.0 {
      NonNegativeProduct(to - from, progress);
      NonNegativeProduct(to - from, 1.0 - progress);
    }
  }

  /** Within the animation (progress in [0, 1]) a falling blend stays between its ends. */
  lemma InterpolateFalling(from: real, to: real, progress: real)
    requires to <= from
    ensures 0.0 <= progress <= 1.0 ==> to <= Interpolate(from, to, progress) <= from
  {
    if 0.0 <= progress <= 1.0 {
      NonNegativeProduct(from - to, progress);
      NonNegativeProduct(from - to, 1.0 - progress);
    }
  }

  /** Outside [0, 1] a rising blend overshoots past the end it has passed. */
  lemma InterpolateOvershoot(from: real, to: real, progress: real)
    requires from < to
    ensures 1.0 < progress ==> to < Interpolate(from, to, progress)
    ensures progress < 0.0 ==> Interpolate(from, to, progress) < from
  {
    if 1.0 < progress {
      PositiveProduct(to - from, progress - 1.0);
    } else if progress < 0.0 {
      PositiveProduct(to - from, -progress);
    }
  }

  lemma NonNegativeProduct(x: real, y: real)
    requires 0.0 <= x && 0.0 <= y
    ensures 0.0 <= x * y
  {
  }

  lemma PositiveProduct(x: real, y: real)
    requires 0.0 < x && 0.0 < y
    ensures 0.0 < x * y
  {
  }

  /** The frame input of a series chart: every element blended from the
      previous series to the current one at `progress`. */
  function Blend(prev: seq<real>, cur: seq<real>, progress: real): (input: seq<real>)
    requires |prev| == |cur|
    ensures |input| == |cur|
    ensures progress == 0.0 ==> input == prev
    ensures progress == 1.0 ==> input == cur
    ensures prev == cur ==> input == cur
  {
    seq(|cur|, i requires 0 <= i < |cur| => Interpolate(prev[i], cur[i], progress))
  }

  /** The previous series after new data arrives: the old current series when
      the length is unchanged, and all zeros of the new length otherwise. */
  function Demote(oldCur: seq<real>, newCur: seq<real>): (prev: seq<real>)
    ensures |prev| == |newCur|
    ensures |oldCur| == |newCur| ==> prev == oldCur
    ensures |oldCur| != |newCur| ==> forall i :: 0 <= i < |prev| ==> prev[i] == 0.0
  {
    if |oldCur| != |newCur| then seq(|newCur|, _ => 0.0) else oldCur
  }

  // ----- Normalisation -----

  /** The sum of a series, added from the left as a reduce does. */
  function Sum(s: seq<real>): real
    decreases |s|
  {
    if |s| == 0 then 0.0 else Sum(s[..|s| - 1]) + s[|s| - 1]
  }

  /** The largest element of a non-empty series. */
  function Max(s: seq<real>): real
    requires |s| > 0
    decreases |s|
  {
    if |s| == 1 then s[0]
    else
      var m := Max(s[..|s| - 1]);
      if s[|s| - 1] > m then s[|s| - 1] else m
  }

  /** Every element divided by `base`, or zero when the base is zero. */
  function Rescale(data: seq<real>, base: real): (r: seq<real>)
    ensures |r| == |data|
    ensures base == 0.0 ==> forall i :: 0 <= i < |r| ==> r[i] == 0.0
    ensures base != 0.0 ==> forall i :: 0 <= i < |r| ==> r[i] * base == data[i]
  {
    seq(|data|, i requires 0 <= i < |data| => if base != 0.0 then data[i] / base else 0.0)
  }

  /** Normalises `data` by its maximum ("comparison") or by its sum
      ("percentage"); any other model is an error. */
  function Normalize(data: seq<real>, model: string): (r: Result<seq<real>>)
    ensures r.Err? <==> model != "comparison" && model != "percentage"
    ensures r.Err? ==> r.error == "unknown model"
    ensures r.Ok? ==> |r.value| == |data|
    ensures model == "comparison" && |data| > 0 ==> r == Ok(Rescale(data, Max(data)))
    ensures model == "percentage" ==> r == Ok(Rescale(data, Sum(data)))
  {
    if model == "comparison" then
      // the maximum of an empty series is never used: its image is empty
      Ok(Rescale(data, if |data| == 0 then 0.0 else Max(data)))
    else if model == "percentage" then
      Ok(Rescale(data, Sum(data)))
    else
      Err("unknown model")
  }

  // ----- Lemmas -----

  ghost predicate NonNegative(s: seq<real>)
  {
    forall i :: 0 <= i < |s| ==> 0.0 <= s[i]
  }

  lemma SumSnoc(s: seq<real>, i: nat)
    requires i < |s|
    ensures Sum(s[..i + 1]) == Sum(s[..i]) + s[i]
  {
    assert s[..i + 1][..i] == s[..i];
  }

  /** Any element of a series is at most its maximum, and some element equals it. */
  lemma {:induction false} MaxIsAttained(s: seq<real>)
    requires |s| > 0
    ensures forall i :: 0 <= i < |s| ==> s[i] <= Max(s)
    ensures exists i :: 0 <= i < |s| && s[i] == Max(s)
    decreases |s|
  {
    if |s| > 1 {
      var t := s[..|s| - 1];
      MaxIsAttained(t);
      var j :| 0 <= j < |t| && t[j] == Max(t);
      if s[|s| - 1] > Max(t) {
        assert s[|s| - 1] == Max(s);
      } else {
        assert s[j] == Max(s);
      }
    } else {
      assert s[0] == Max(s);
    }
  }

  /** Every prefix sum of a non-negative series is non-negative. */
  lemma {:induction false} PrefixSumNonNegative(s: seq<real>, i: nat)
    requires NonNegative(s)
    requires i <= |s|
    ensures 0.0 <= Sum(s[..i])
  {
    if i > 0 {
      SumSnoc(s, i - 1);
      PrefixSumNonNegative(s, i - 1);
    }
  }

  /** For a non-negative series, a prefix sum plus the next element is at most the total. */
  lemma {:induction false} PrefixSumBounded(s: seq<real>, i: nat)
    requires NonNegative(s)
    requires i < |s|
    ensures 0.0 <= Sum(s[..i])
    ensures Sum(s[..i]) + s[i] <= Sum(s)
    decreases |s| - i
  {
    PrefixSumNonNegative(s, i);
    SumSnoc(s, i);
    if i + 1 < |s| {
      PrefixSumBounded(s, i + 1);
    } else {
      assert s[..i + 1] == s;
    }
  }

  /** A share of a positive whole lies in [0, 1]. */
  lemma ShareInUnitRange(a: real, b: real)
    requires 0.0 <= a <= b && 0.0 < b
    ensures 0.0 <= a / b <= 1.0
  {
    assert a / b * b == a;
  }

  /** Dividing every element by the same base divides the sum by it. */
  lemma {:induction false} SumRescale(s: seq<real>, base: real)
    requires base != 0.0
    ensures Sum(Rescale(s, base)) == Sum(s) / base
    decreases |s|
  {
    if |s| > 0 {
      var n := |s| - 1;
      assert Rescale(s, base)[..n] == Rescale(s[..n], base);
      SumRescale(s[..n], base);
      assert Sum(Rescale(s, base)) == Sum(s[..n]) / base + s[n] / base;
    }
  }

  /** Under "comparison", a non-negative series with a positive element maps
      into [0, 1], and exactly the elements equal to the maximum map to 1. */
  lemma ComparisonInUnitRange(data: seq<real>)
    requires NonNegative(data)
    requires exists i :: 0 <= i < |data| && 0.0 < data[i]
    ensures Normalize(data, "comparison").Ok?
    ensures var r := Normalize(data, "comparison").value;
      && (forall i :: 0 <= i < |r| ==> 0.0 <= r[i] <= 1.0)
      && (forall i :: 0 <= i < |r| ==> (r[i] == 1.0 <==> data[i] == Max(data)))
      && (exists i :: 0 <= i < |r| && r[i] == 1.0)
  {
    MaxIsAttained(data);
    var m := Max(data);
    var k :| 0 <= k < |data| && 0.0 < data[k];
    assert 0.0 < m;
    var r := Rescale(data, m);
    assert Normalize(data, "comparison") == Ok(r);
    forall i | 0 <= i < |r|
      ensures 0.0 <= r[i] <= 1.0
      ensures r[i] == 1.0 <==> data[i] == m
    {
      ShareInUnitRange(data[i], m);
      ShareIsOne(data[i], m);
    }
    var j :| 0 <= j < |data| && data[j] == m;
    assert r[j] == 1.0;
  }

  /** A quotient is 1 exactly when the dividend equals the divisor. */
  lemma ShareIsOne(a: real, b: real)
    requires b != 0.0
    ensures a / b == 1.0 <==> a == b
  {
    assert a / b * b == a;
  }

  /** Under "percentage", a non-negative series with a positive sum maps into
      [0, 1], and the results sum to exactly 1. */
  lemma PercentageSumsToOne(data: seq<real>)
    requires NonNegative(data)
    requires 0.0 < Sum(data)
    ensures Normalize(data, "percentage").Ok?
    ensures var r := Normalize(data, "percentage").value;
      && (forall i :: 0 <= i < |r| ==> 0.0 <= r[i] <= 1.0)
      && Sum(r) == 1.0
  {
    var base := Sum(data);
    var r := Rescale(data, base);
    assert Normalize(data, "percentage") == Ok(r);
    SumRescale(data, base);
    forall i | 0 <= i < |r|
      ensures 0.0 <= r[i] <= 1.0
    {
      PrefixSumBounded(data, i);
      assert r[i] == data[i] / base;
      ShareInUnitRange(data[i], base);
    }
    assert Sum(r) == base / base;
  }

  lemma {:induction false} SumOfZeros(s: seq<real>)
    requires forall i :: 0 <= i < |s| ==> s[i] == 0.0
    ensures Sum(s) == 0.0
    decreases |s|
  {
    if |s| > 0 {
      SumOfZeros(s[..|s| - 1]);
    }
  }

  /** An all-zero series normalises to all zeros under either model, without error. */
  lemma AllZeroNormalizesToZero(data: seq<real>, model: string)
    requires forall i :: 0 <= i < |data| ==> data[i] == 0.0
    requires model == "comparison" || model == "percentage"
    ensures Normalize(data, model).Ok?
    ensures forall i :: 0 <= i < |data| ==> Normalize(data, model).value[i] == 0.0
  {
    SumOfZeros(data);
    if |data| > 0 {
      MaxIsAttained(data);
    }
  }
}
